=== FILE: README.md ===
# snowball-monitor: the rebalancing monitor's decision logic in Dafny

The monitor polls the rebalancing feed of a set of watched Xueqiu "cubes" (model
portfolios). For each cube it compares the latest trade's `(id, status)` with a
per-symbol cursor kept in one saved mapping, and on a change it does four things:
- builds a title and a summary body;
- decides whether to send a Bark push;
- archives the trade, with its summary, to a history list capped at 200 entries;
- overwrites the cursor.

An authentication failure (HTTP 400/401/403) triggers a cookie alert, at most once
per cooldown window. The window is tracked by a timestamp stored in the same
saved mapping.

The model keeps this logic and leaves out the HTTP, Redis and Bark calls around it:
- one fetch is an input `Poll(now, fetch)`;
- the pushes, the history lists and the written mapping are outputs of pure functions;
- `main` is a fold of the per-cube step over the watch list.

Modules, leaves first:
- `Base`: `Option`, and `Result` for the steps that raise.
- `Text`: substring search, `split(sep, 1)`, `"\n".join`.
- `Feed`: trade, stock and fetch records with the source's field defaults.
- `Store`: the saved mapping (cursor records and the alert timestamp).
- `Summary`: heading split, status glyph, 0.1 filter, verbs, line texts.
- `Detector`: change classification, the push gate and footer choice, the body text.
- `History`: LPUSH, LTRIM and their composition.
- `Cookie`: `check_cookie_status`.
- `Monitor`: `monitor_one_cube`, the loop of `main`, and run-level properties.

How `fetch_rebalancing.py` treats authentication failures and the cookie:
- An authentication failure ends only that cube's step (line 142). The loop
  continues over the remaining cubes (lines 249-251).
- `main` returns normally after the final save (line 254), whatever the cubes' codes were.
- The cookie is a fixed request header (lines 50-54). Nothing about it is written back.
- The alert window is `COOKIE_ALERT_INTERVAL = 259200` seconds (line 31). The model
  keeps that value as `Cookie.COOKIE_ALERT_INTERVAL` and takes the window as the
  parameter `Settings.cooldown`.

Some values of the saved mapping and the feed make the source raise. The source
catches every exception in `monitor_one_cube` and drops that cube with nothing
changed. The model returns `Raised(...)` for these cases, and the step becomes a
no-op:
- a trade without an id;
- a number stored under a cube's symbol;
- a record stored under `last_cookie_alert_time`.

## Model

| member | source | states |
|---|---|---|
| Text.FindFirst | fetch_rebalancing.py:164 | finds the first occurrence of the pattern; `None` exactly when the pattern does not occur (Python `in`) |
| Text.SplitOnce | fetch_rebalancing.py:164-165 | the parts around the first " - " re-join to the name, and no earlier occurrence exists; `None` exactly when the separator is absent |
| Text.JoinSnoc | fetch_rebalancing.py:212-228 | appending `"\n" + note` to a joined body gives the join of the lines with the note added last |
| Store.LastSeen | fetch_rebalancing.py:152-154 | an unseen symbol reads as id "" and status "unknown"; a stored record missing `id` or `status` takes the same defaults, and present fields read as stored; a non-record entry raises |
| Store.Remember | fetch_rebalancing.py:235-238 | overwrites only the symbol's cursor; every other key keeps its value; reading the cursor back gives exactly the written `{id, status}` |
| Store.AlertStamp | fetch_rebalancing.py:128-130 | a missing alert timestamp reads as 0; a stored time reads back as itself; a record stored there raises when subtracted from `now` |
| Store.RememberIsolated | fetch_rebalancing.py:235-238 | writing one cube's cursor does not change another cube's cursor or the alert timestamp |
| Feed.Status | fetch_rebalancing.py:149 | a trade without `status` reads as "unknown"; otherwise its own status |
| Feed.Category | fetch_rebalancing.py:172 | a trade without `category` reads as "unknown"; otherwise its own category |
| Feed.StockLabel | fetch_rebalancing.py:202 | the label is `stock_name`, else `stock_symbol`, else "未知" |
| Feed.Weight | fetch_rebalancing.py:203-204 | a missing weight reads as 0.0; a present weight reads as itself (a zero weight is 0.0 either way) |
| Feed.Change | fetch_rebalancing.py:205 | the change is target minus previous weight, with a missing weight counted as 0.0 |
| Summary.Glyph | fetch_rebalancing.py:175-181 | system category gives ⚙️[系统]; a user trade gives ✅[成功], ❌[失败] or ⏳[待成交] for success, failed and pending, and `[status]` otherwise; any other category gives ❓[未知]; the glyph carries ❓ exactly for an unrecognised category or a user status containing ❓ |
| Summary.HeadingOf | fetch_rebalancing.py:164-169 | with " - " present: cube name is the part before its first occurrence, and the header names the manager; otherwise the whole name is used |
| Summary.BeijingSeconds | fetch_rebalancing.py:189 | the result is the floor of `created_at / 1000 + 28800` |
| Summary.TimeOf | fetch_rebalancing.py:186-192 | the time is unknown exactly when `created_at` is missing or zero |
| Summary.VerbOf | fetch_rebalancing.py:207 | "系统" iff system category; else "买入" iff the change is positive; else "卖出", including a zero change |
| Summary.MoveOf | fetch_rebalancing.py:202-209 | the allocation line shows the stock label and the defaulted previous and target weights, and its verb follows the direction between those two weights |
| Summary.Moves | fetch_rebalancing.py:200-209 | no line iff no stock moves by more than 0.1; every line moves by more than 0.1; for non-system trades, buy means a rise and sell a fall |
| Summary.MovesExact | fetch_rebalancing.py:200-209 | a stock gets a line iff it moves by more than 0.1 (exactly 0.1 is excluded); the line uses weights defaulted to 0.0 |
| Summary.LineText | fetch_rebalancing.py:166-228 | every line renders to non-empty text; a line starts with "(" iff it is a footer note; notes end in ")" and allocation lines end in "%" |
| Detector.Classify | fetch_rebalancing.py:156-160 | new-trade and status-update never hold together; nothing triggers exactly when id and status equal the cursor |
| Detector.BodyLines | fetch_rebalancing.py:195-209 | the body lines are the header, time and rule lines, then exactly the filtered allocation lines; none is a footer; there are more than three lines iff some stock moves by more than 0.1 |
| Detector.FooterOf | fetch_rebalancing.py:216-228 | with no push: the minor-adjustment note; with a push: system note > new-category note > status-change note, or no note when none of these applies |
| Detector.Decide | fetch_rebalancing.py:163-228 | the title is glyph, "调仓-" and cube name; a push is sent iff a stock moves by more than 0.1, the category is system, the glyph needs review, or the id is unchanged; a suppressed push has only the three fixed lines and the minor note; a push has no footer exactly when only allocation lines triggered it |
| Detector.Body | fetch_rebalancing.py:212-228 | the body, built by joining the lines and then appending "\n" and the footer, equals the join of all summary lines with the footer last |
| Detector.AtMostOneFooter | fetch_rebalancing.py:216-228 | the summary has at least four lines; only its last line can be a footer, and it is one exactly when a footer was chosen |
| Detector.MissingCategoryIsReviewed | fetch_rebalancing.py:172-221 | a trade without a category gets ❓[未知] in the title, is always pushed, and carries the new-category note naming "unknown" |
| History.LPush | fetch_rebalancing.py:107-116 | the pushed element becomes the head, followed by the old list |
| History.LTrim | fetch_rebalancing.py:118-120 | keeps positions start..stop inclusive, clamped to the list |
| History.Archive | fetch_rebalancing.py:101-120 | the new entry is first, followed by the newest earlier entries; the length is min(old + 1, 200) |
| History.TrimIdempotent | fetch_rebalancing.py:118-120 | trimming to 0..199 twice equals trimming once |
| History.ArchiveAllKeepsNewest | fetch_rebalancing.py:101-120 | after any run of archives, the log is the newest 200 of all entries, newest first |
| Cookie.CheckCookie | fetch_rebalancing.py:126-136 | returns false iff the code is 400, 401 or 403; alerts iff `now - last > cooldown`, then stamps `now` and changes no other key; no alert leaves the map unchanged |
| Cookie.CooldownSuppressesRepeat | fetch_rebalancing.py:128-135 | a second failure inside the window after an alert sends nothing and keeps the timestamp |
| Cookie.ShippedWindowSuppressesRetry | fetch_rebalancing.py:31 | with the shipped 259200 s window, a failure past the window alerts, and a second failure 10 s later sends nothing |
| Monitor.LinkTo | fetch_rebalancing.py:65-66 | a push carries the deep link `https://xueqiu.com/P/<symbol>` iff the symbol is non-empty |
| Monitor.CookieAlertPush | fetch_rebalancing.py:132 | the cookie alert has title "雪球监控警告", body "Cookie似乎失效了，请更新 Secrets" and the deep link for ZH000000 |
| Monitor.Observe | fetch_rebalancing.py:144-239 | no change is a no-op; on a change it overwrites the cursor and archives the trade with the final body; a push is sent iff the gate holds, and it carries the decided title, the archived body and the cube's deep link |
| Monitor.MonitorOne | fetch_rebalancing.py:138-243 | a changed (id, status) is archived with the final body and remembered, and pushed iff the gate holds; an auth failure past the cooldown sends exactly the cookie alert and stamps the time; one inside the window changes nothing; an unreachable feed changes nothing; only these paths archive or alert |
| Monitor.UnchangedTradeIsSilent | fetch_rebalancing.py:157-160 | the remembered `(id, status)` gives no push, no archive and an unchanged map |
| Monitor.RepollIsSilent | fetch_rebalancing.py:152-160 | polling the same trade again after it was archived is a no-op |
| Monitor.Commit | fetch_rebalancing.py:230-239 | an archiving step puts the trade at the head of its symbol's log, within 200 entries, and writes the map to the store; other logs are untouched; the step's push is appended |
| Monitor.Fold | fetch_rebalancing.py:249-251 | the loop applies `Apply` (one `monitor_one_cube` call, then `Commit`) to each cube in order; each cube adds at most one push and keeps earlier pushes; every history list is untouched or within 200; new lists belong to watched symbols |
| Monitor.Run | fetch_rebalancing.py:245-254 | the mapping written last is the final in-memory mapping; at most one push per cube; history lists stay within the cap |
| Monitor.RunLoop | fetch_rebalancing.py:245-254 | the loop computes the same world as the fold |
| Monitor.AlertsRespectCooldown | fetch_rebalancing.py:126-136 | within a run, consecutive cookie alerts are more than the cooldown apart |
| Monitor.AuthFailureDoesNotHalt | fetch_rebalancing.py:249-251 | after an auth failure on one cube, the next cube's new trade is still archived and remembered |
| Monitor.StatusOnlyUpdateIsPushed | fetch_rebalancing.py:216-225 | for a non-system trade whose glyph has no ❓, an id-stable status change is pushed with the "状态更新: before -> after" note, and the cursor takes the new status |
| Monitor.MinorAdjustmentIsArchivedSilently | fetch_rebalancing.py:226-232 | a new (id changed) 5.0 -> 5.05 user trade whose glyph has no ❓ sends no push, but is archived with the minor-adjustment note and remembered |

## Left out

- HTTP fetch, Upstash GET/SET/LPUSH/LTRIM and the Bark POST: network I/O. The fetch is an input; the others are outputs of the model, and every write is assumed to succeed. Their failures are swallowed in the source and do not change the decision logic.
- The Bark payload's fixed icon, group and archive flag: constants with no decision logic.
- `load_cube_config`, the environment checks and `exit(1)`: configuration that runs before the core. The watch list is a parameter.
- `reset.py`: a one-shot delete request with no logic.
- `time.gmtime`/`strftime` and the `fetched_at` stamp: library formatting. The Beijing offset is modelled as arithmetic. The formatted text comes from the `Formats.clock` parameter, and archived entries do not carry `fetched_at`.
- Summary.TimeOf: always yields a time for a non-zero `created_at`. In the source, `time.gmtime` raises for a value outside the platform's time range, which drops the cube with no archive and no cursor update. The model archives such a trade instead, because the platform range is a property of the C library.
- Float behaviour of weights: weights are `real`, so the 0.1 comparison is exact. Their `str` rendering is the `Formats.percent` parameter. The difference between an integer and a float weight in JSON is not modelled.
- `time.sleep(1)`, `print`: no effect on state.
- Exceptions from ill-typed JSON: a non-object stock entry, a non-numeric weight, and non-string fields are excluded by the typed inputs. So is a JSON `null` in `id`, or in a field read with an explicit default (`status`, `category`, `stock_name`, `stock_symbol`, `rebalancing_histories`), where `get` returns `None` instead of the default. A `null` in a field read without a default (`prev_weight_adjusted`, `target_weight`, `created_at`) behaves as a missing key, and the model's `None` covers it. The modelled raising cases are listed above.
- Negative LTRIM indices: the monitor only trims to 0..199.
- Summary.MovesExact: relates lines and stocks by membership in both directions. Order and multiplicity follow from the definition of `Summary.Moves` and are not restated.

=== FILE: base.dfy ===
/** Failure-compatible wrappers shared by the monitor's modules. */
module Base {

  /** An optional value: a JSON field that may be missing, a lookup that may miss. */
  datatype Option<+T> = None | Some(value: T) {

    /** The value, or `default` when it is absent (Python's `d.get(k, default)`). */
    function GetOr(default: T): T {
      match this
      case Some(v) => v
      case None => default
    }
  }

  /** Why one cube's step raised instead of finishing. The monitor catches every
      such exception and drops that cube for the current run. */
  datatype Fault =
    | MissingTradeId       // `latest_trade['id']` on a record without an id
    | CursorNotRecord      // the saved entry for the symbol is not a `{id, status}` record
    | AlertStampNotNumber  // `last_cookie_alert_time` holds a record, not a number

  /** The outcome of a step that may raise. */
  datatype Result<+T> = Ok(value: T) | Raised(fault: Fault)
}

=== FILE: cookie.dfy ===
/** `check_cookie_status`: recognising an authentication failure from the feed's
    status code, and rate-limiting the alert it raises through a timestamp kept
    in the saved mapping. */
module Cookie {
  import opened Base
  import opened Store

  /** The cooldown the monitor ships with: three days, in seconds. */
  const COOKIE_ALERT_INTERVAL: real := 259200.0

  /** The status codes the feed answers with when the session cookie is no longer accepted. */
  predicate IsAuthFailure(code: int) {
    code == 400 || code == 401 || code == 403
  }

  /** `valid` is what `check_cookie_status` returns; `alert` says whether it sent
      the cookie alert; `saved` is the mapping afterwards. */
  datatype Verdict = Verdict(valid: bool, saved: Saved, alert: bool)

  /** Check one status code at time `now`, alerting at most once per `cooldown`
      seconds. A record stored under the alert key makes the subtraction raise. */
  function CheckCookie(code: int, saved: Saved, now: real, cooldown: real): (r: Result<Verdict>)
    ensures !IsAuthFailure(code) ==> r == Ok(Verdict(true, saved, false))
    ensures r.Raised? <==> IsAuthFailure(code) && AlertStamp(saved).Raised?
    ensures r.Ok? ==> (r.value.valid <==> !IsAuthFailure(code))
    ensures r.Ok? && r.value.alert <==>
              IsAuthFailure(code) && AlertStamp(saved).Ok? && now - AlertStamp(saved).value > cooldown
    ensures r.Ok? && r.value.alert ==>
              r.value.saved.Keys == saved.Keys + {ALERT_KEY} &&
              (forall k :: k in saved && k != ALERT_KEY ==> r.value.saved[k] == saved[k]) &&
              AlertStamp(r.value.saved) == Ok(now)
    ensures r.Ok? && !r.value.alert ==> r.value.saved == saved
  {
    if !IsAuthFailure(code) then Ok(Verdict(true, saved, false))
    else match AlertStamp(saved)
      case Raised(f) => Raised(f)
      case Ok(last) =>
        if now - last > cooldown then Ok(Verdict(false, saved[ALERT_KEY := Stamp(now)], true))
        else Ok(Verdict(false, saved, false))
  }

  /** A second failure inside the window after an alert sends nothing and leaves
      the timestamp as the alert set it. */
  lemma CooldownSuppressesRepeat(code: int, code': int, saved: Saved, now: real, now': real, cooldown: real)
    requires CheckCookie(code, saved, now, cooldown).Ok? && CheckCookie(code, saved, now, cooldown).value.alert
    requires IsAuthFailure(code')
    requires now' - now <= cooldown
    ensures var after := CheckCookie(code, saved, now, cooldown).value.saved;
            CheckCookie(code', after, now', cooldown) == Ok(Verdict(false, after, false))
  {
  }

  /** With the shipped three-day window, a second failure ten seconds after an
      alert sends nothing. */
  lemma ShippedWindowSuppressesRetry(saved: Saved, now: real)
    requires AlertStamp(saved).Ok? && now - AlertStamp(saved).value > COOKIE_ALERT_INTERVAL
    ensures var first := CheckCookie(403, saved, now, COOKIE_ALERT_INTERVAL);
            && first.Ok? && first.value.alert
            && CheckCookie(401, first.value.saved, now + 10.0, COOKIE_ALERT_INTERVAL) == Ok(Verdict(false, first.value.saved, false))
  {
    CooldownSuppressesRepeat(403, 401, saved, now, now + 10.0, COOKIE_ALERT_INTERVAL);
  }
}

=== FILE: detector.dfy ===
/** Change detection against a cube's cursor, and the summary/notification
    decision taken when something changed. */
module Detector {
  import opened Base
  import opened Text
  import opened Feed
  import opened Store
  import opened Summary

  /** `is_new_trade`: the feed's latest id differs from the remembered one. */
  predicate IsNewTrade(current: Cursor, last: Cursor) {
    current.id != last.id
  }

  /** `is_status_update`: same trade, different status. */
  predicate IsStatusUpdate(current: Cursor, last: Cursor) {
    current.id == last.id && current.status != last.status
  }

  /** What a fetched (id, status) triggers against the cursor. */
  datatype Trigger = NewTrade | StatusUpdate | NoChange

  /** Classify a fetched (id, status) against the cursor. The two triggering
      cases never hold together, and nothing triggers exactly when the pair is
      the remembered one. */
  function Classify(current: Cursor, last: Cursor): (r: Trigger)
    ensures r == NewTrade <==> IsNewTrade(current, last)
    ensures r == StatusUpdate <==> IsStatusUpdate(current, last)
    ensures r == NoChange <==> current == last
  {
    if IsNewTrade(current, last) then NewTrade
    else if IsStatusUpdate(current, last) then StatusUpdate
    else NoChange
  }

  /** What to show and whether to push. `lines` are the lines joined into the body
      (`msg_lines`); `footer` is the one note appended after them, if any. */
  datatype Decision = Decision(title: string, lines: seq<Line>, footer: Option<Line>, push: bool)

  /** `msg_lines`: header, time and rule, then the allocation lines. */
  function BodyLines(fullName: string, trade: Trade): (lines: seq<Line>)
    ensures |lines| >= 3
    ensures lines[0] == HeadingOf(fullName).header
    ensures lines[1] == TimeLine(TimeOf(trade.createdAt))
    ensures lines[2] == Rule
    ensures lines[3..] == Moves(Category(trade), trade.histories)
    ensures forall i :: 3 <= i < |lines| ==> lines[i].Move?
    ensures forall i :: 0 <= i < |lines| ==> !lines[i].IsFooter()
    ensures |lines| > 3 <==> exists i :: 0 <= i < |trade.histories| && Significant(trade.histories[i])
  {
    var moves := Moves(Category(trade), trade.histories);
    var lines := [HeadingOf(fullName).header, TimeLine(TimeOf(trade.createdAt)), Rule] + moves;
    assert lines[3..] == moves;
    assert forall i :: 3 <= i < |lines| ==> lines[i] == moves[i - 3];
    lines
  }

  /** The note appended to the body: the minor-adjustment note when no push is
      sent; otherwise at most one note, system > new category > status change. */
  function FooterOf(push: bool, category: string, review: bool, current: Cursor, last: Cursor): (f: Option<Line>)
    ensures !push ==> f == Some(MinorNote)
    ensures push ==> f != Some(MinorNote)
    ensures push && category == SYS ==> f == Some(SystemNote)
    ensures push && category != SYS && review ==> f == Some(NewCategoryNote(category))
    ensures push && category != SYS && !review && IsStatusUpdate(current, last) ==>
              f == Some(StatusNote(last.status, current.status))
    ensures f.None? <==> push && category != SYS && !review && !IsStatusUpdate(current, last)
    ensures f.Some? ==> f.value.IsFooter()
  {
    if !push then Some(MinorNote)
    else if category == SYS then Some(SystemNote)
    else if review then Some(NewCategoryNote(category))
    else if IsStatusUpdate(current, last) then Some(StatusNote(last.status, current.status))
    else None
  }

  /** The summary and push decision for a triggering change from `last` to `current`. */
  function Decide(fullName: string, trade: Trade, current: Cursor, last: Cursor): (d: Decision)
    requires current != last
    // title: glyph, then "调仓-", then the cube name
    ensures d.title == Glyph(Category(trade), current.status) + "调仓-" + HeadingOf(fullName).cube
    ensures d.lines == BodyLines(fullName, trade)
    // the push gate
    ensures d.push <==>
              || (exists i :: 0 <= i < |trade.histories| && Significant(trade.histories[i]))
              || Category(trade) == SYS
              || NeedsReview(Category(trade), current.status)
              || current.id == last.id
    // a suppressed push is a minor adjustment with no allocation line
    ensures !d.push ==> |d.lines| == 3 && d.footer == Some(MinorNote)
    // footer priority: system note > new-category note > status note > none
    ensures d.footer == FooterOf(d.push, Category(trade), NeedsReview(Category(trade), current.status), current, last)
    ensures d.footer.None? <==>
              d.push && Category(trade) != SYS && !NeedsReview(Category(trade), current.status) && current.id != last.id
  {
    var category := Category(trade);
    var glyph := Glyph(category, current.status);
    var lines := BodyLines(fullName, trade);
    var push := |lines| > 3 || category == SYS || REVIEW_MARK in glyph || IsStatusUpdate(current, last);
    var footer := FooterOf(push, category, REVIEW_MARK in glyph, current, last);
    Decision(glyph + "调仓-" + HeadingOf(fullName).cube, lines, footer, push)
  }

  /** `msg_body`: the lines joined with "\n", then "\n" and the footer's text. The
      result is the join of all lines of the summary, footer last. */
  function Body(d: Decision, fmt: Formats): (r: string)
    ensures d.footer.None? ==> r == Join(LineTexts(d.lines, fmt), "\n")
    ensures d.footer.Some? && |d.lines| > 0 ==> r == Join(LineTexts(d.lines + [d.footer.value], fmt), "\n")
  {
    var joined := Join(LineTexts(d.lines, fmt), "\n");
    if d.footer.None? then joined
    else
      var note := LineText(d.footer.value, fmt);
      if |d.lines| > 0 then
        assert LineTexts(d.lines + [d.footer.value], fmt) == LineTexts(d.lines, fmt) + [note];
        JoinSnoc(LineTexts(d.lines, fmt), "\n", note);
        joined + "\n" + note
      else joined + "\n" + note
  }

  /** Whatever triggered it, a summary always ends in at most one footer, and has
      none exactly when only allocation lines triggered the push. */
  lemma {:induction false} AtMostOneFooter(fullName: string, trade: Trade, current: Cursor, last: Cursor)
    requires current != last
    ensures var d := Decide(fullName, trade, current, last);
            var all := d.lines + (if d.footer.Some? then [d.footer.value] else []);
            && |all| >= 4
            && (forall i :: 0 <= i < |all| - 1 ==> !all[i].IsFooter())
            && (all[|all| - 1].IsFooter() <==> d.footer.Some?)
  {
    var d := Decide(fullName, trade, current, last);
    var all := d.lines + (if d.footer.Some? then [d.footer.value] else []);
    if d.footer.None? {
      assert all == d.lines;
    }
    forall i | 0 <= i < |all| - 1
      ensures !all[i].IsFooter()
    {
      assert all[i] == d.lines[i];
    }
  }

  /** A trade without a category reads as category "unknown": it always passes
      the push gate and carries the new-category note naming "unknown". */
  lemma MissingCategoryIsReviewed(fullName: string, trade: Trade, current: Cursor, last: Cursor)
    requires current != last
    requires trade.category.None?
    ensures var d := Decide(fullName, trade, current, last);
            && d.push
            && d.title == "❓[未知]调仓-" + HeadingOf(fullName).cube
            && d.footer == Some(NewCategoryNote("unknown"))
  {
    assert Category(trade) == "unknown";
    assert NeedsReview("unknown", current.status);
  }
}

=== FILE: feed.dfy ===
/** What one poll of the rebalancing-history feed delivers. Every JSON field the
    monitor reads with a default is optional here; the defaults live in the
    accessor functions below. */
module Feed {
  import opened Base

  /** One entry of `rebalancing_histories`: a stock whose weight changed. */
  datatype Stock = Stock(
    stockName: Option<string>,
    stockSymbol: Option<string>,
    prevWeight: Option<real>,    // `prev_weight_adjusted`, in percent
    targetWeight: Option<real>)  // `target_weight`, in percent

  /** The latest rebalancing record of a cube (`list[0]` of the feed). */
  datatype Trade = Trade(
    id: Option<string>,          // `str(id)`; a record without an id makes the step raise
    status: Option<string>,
    category: Option<string>,
    createdAt: Option<int>,      // epoch milliseconds
    histories: seq<Stock>)       // a missing list reads as empty

  /** The result of the HTTP GET for one cube. `latest` is `None` when the body
      is not JSON, has no `list`, or the list is empty. */
  datatype Fetch =
    | Unreachable                                  // the request itself raised
    | Response(code: int, latest: Option<Trade>)

  /** One poll: the wall-clock time (`time.time()`) and what the fetch returned. */
  datatype Poll = Poll(now: real, fetch: Fetch)

  /** `latest_trade.get('status', 'unknown')` */
  function Status(t: Trade): (r: string)
    ensures t.status.None? ==> r == "unknown"
    ensures t.status.Some? ==> r == t.status.value
  {
    t.status.GetOr("unknown")
  }

  /** `latest_trade.get('category', 'unknown')` */
  function Category(t: Trade): (r: string)
    ensures t.category.None? ==> r == "unknown"
    ensures t.category.Some? ==> r == t.category.value
  {
    t.category.GetOr("unknown")
  }

  /** `stock_name`, else `stock_symbol`, else "未知". */
  function StockLabel(s: Stock): (r: string)
    ensures s.stockName.Some? ==> r == s.stockName.value
    ensures s.stockName.None? && s.stockSymbol.Some? ==> r == s.stockSymbol.value
    ensures s.stockName.None? && s.stockSymbol.None? ==> r == "未知"
  {
    s.stockName.GetOr(s.stockSymbol.GetOr("未知"))
  }

  /** `w or 0.0`: a missing weight (and a zero one) reads as 0.0; any other weight reads as itself. */
  function Weight(w: Option<real>): (r: real)
    ensures w.None? ==> r == 0.0
    ensures w.Some? ==> r == w.value
  {
    w.GetOr(0.0)
  }

  /** `target_w - prev_w`, in percentage points. */
  function Change(s: Stock): (r: real)
    ensures s.prevWeight.None? ==> r == Weight(s.targetWeight)
    ensures s.targetWeight.None? ==> r == -Weight(s.prevWeight)
    ensures s.prevWeight.Some? && s.targetWeight.Some? ==> r == s.targetWeight.value - s.prevWeight.value
  {
    Weight(s.targetWeight) - Weight(s.prevWeight)
  }
}

=== FILE: history.dfy ===
/** The per-cube history log: `LPUSH` of the archived trade followed by
    `LTRIM key 0 HISTORY_LIMIT-1`, so the log keeps the newest entries first. */
module History {

  /** Entries kept per cube (LTRIM 0 199). */
  const HISTORY_LIMIT: nat := 200

  function Min(a: int, b: int): int {
    if a <= b then a else b
  }

  /** Redis LPUSH of one element: it becomes the head of the list. */
  function LPush<T>(list: seq<T>, x: T): (r: seq<T>)
    ensures |r| == |list| + 1 && r[0] == x && r[1..] == list
  {
    [x] + list
  }

  /** Redis LTRIM with non-negative indices: keep the elements at positions
      `start` through `stop`, both inclusive, dropping any that do not exist. */
  function LTrim<T>(list: seq<T>, start: nat, stop: nat): (r: seq<T>)
    ensures |r| == if start <= stop && start < |list| then Min(stop + 1, |list|) - start else 0
    ensures forall i :: 0 <= i < |r| ==> r[i] == list[start + i]
  {
    if start <= stop && start < |list| then list[start..Min(stop + 1, |list|)] else []
  }

  /** Archive one entry: push it to the head, then trim to the limit. The result
      holds the new entry first, then the newest earlier entries, never more than
      HISTORY_LIMIT of them. */
  function Archive<T>(list: seq<T>, x: T): (r: seq<T>)
    ensures |r| == Min(|list| + 1, HISTORY_LIMIT)
    ensures r[0] == x
    ensures r[1..] == list[..|r| - 1]
  {
    var r := LTrim(LPush(list, x), 0, HISTORY_LIMIT - 1);
    assert r[1..] == list[..|r| - 1];
    r
  }

  /** Trimming to the limit twice is trimming once: repeating `LTRIM 0 199` changes nothing. */
  lemma TrimIdempotent<T>(list: seq<T>)
    ensures LTrim(LTrim(list, 0, HISTORY_LIMIT - 1), 0, HISTORY_LIMIT - 1) == LTrim(list, 0, HISTORY_LIMIT - 1)
  {
    var once := LTrim(list, 0, HISTORY_LIMIT - 1);
    assert |once| <= HISTORY_LIMIT;
  }

  /** Archive a sequence of entries one after another, oldest first. */
  function ArchiveAll<T>(list: seq<T>, xs: seq<T>): (r: seq<T>)
    decreases |xs|
  {
    if |xs| == 0 then list else ArchiveAll(Archive(list, xs[0]), xs[1..])
  }

  function Reverse<T>(xs: seq<T>): (r: seq<T>)
    ensures |r| == |xs|
    ensures forall i :: 0 <= i < |xs| ==> r[i] == xs[|xs| - 1 - i]
  {
    if |xs| == 0 then [] else Reverse(xs[1..]) + [xs[0]]
  }

  /** After any run of archives the log is the newest HISTORY_LIMIT entries of
      "everything ever pushed", newest first, provided the log started within
      the limit. */
  lemma {:induction false} ArchiveAllKeepsNewest<T>(list: seq<T>, xs: seq<T>)
    requires |list| <= HISTORY_LIMIT
    ensures var all := Reverse(xs) + list;
            ArchiveAll(list, xs) == all[..Min(|all|, HISTORY_LIMIT)]
    decreases |xs|
  {
    if |xs| > 0 {
      var next := Archive(list, xs[0]);
      ArchiveAllKeepsNewest(next, xs[1..]);
      var all := Reverse(xs) + list;
      var rest := Reverse(xs[1..]) + next;
      assert Reverse(xs) == Reverse(xs[1..]) + [xs[0]];
      // `next` is the first HISTORY_LIMIT entries of [xs[0]] + list
      assert next == ([xs[0]] + list)[..|next|];
      assert all == Reverse(xs[1..]) + ([xs[0]] + list);
      var k := Min(|rest|, HISTORY_LIMIT);
      assert k == Min(|all|, HISTORY_LIMIT);
      forall i | 0 <= i < k
        ensures rest[i] == all[i]
      {
        if i >= |Reverse(xs[1..])| {
          var j := i - |Reverse(xs[1..])|;
          assert rest[i] == next[j];
          assert all[i] == ([xs[0]] + list)[j];
        }
      }
      assert rest[..k] == all[..k];
    }
  }
}

=== FILE: monitor.dfy ===
/** `monitor_one_cube` as a pure step over the saved mapping, and `main` as a fold
    of that step over the watch list. The HTTP fetch is an input (`Poll`); the
    Bark pushes, the history lists and the stored mapping are outputs. */
module Monitor {
  import opened Base
  import opened Feed
  import opened Store
  import opened Summary
  import opened Detector
  import opened History
  import opened Cookie

  /** The parameters of a run: the alert cooldown in seconds, and the formatters
      standing in for `strftime` and `str` of a weight. */
  datatype Settings = Settings(cooldown: real, fmt: Formats)

  /** One entry of the watch list: symbol and display name. */
  datatype Cube = Cube(symbol: string, name: string)

  datatype PushKind = CookieAlert | TradeAlert

  /** One Bark notification, with the poll time it was sent at. The fixed icon,
      group and archive flag of every payload are not modelled. */
  datatype Push = Push(kind: PushKind, at: real, title: string, body: string, url: Option<string>)

  /** A trade as appended to the history log, with its `summary_text`. */
  datatype Archived = Archived(trade: Trade, summaryText: string)

  /** What one cube's step leaves behind: the saved mapping, the push it sent and
      the trade it archived. A step that archives also writes the mapping to the store. */
  datatype Step = Step(saved: Saved, push: Option<Push>, archived: Option<Archived>) {
    predicate Alerted() {
      push.Some? && push.value.kind == CookieAlert
    }
  }

  /** A step that changes nothing. */
  function Quiet(saved: Saved): Step {
    Step(saved, None, None)
  }

  /** The deep link of a push: only for a non-empty symbol. */
  function LinkTo(symbol: string): (r: Option<string>)
    ensures r.Some? <==> symbol != ""
    ensures r.Some? ==> r.value == "https://xueqiu.com/P/" + symbol
  {
    if symbol != "" then Some("https://xueqiu.com/P/" + symbol) else None
  }

  /** The alert sent when the cookie stops working. */
  function CookieAlertPush(now: real): (p: Push)
    ensures p.kind == CookieAlert && p.at == now
    ensures p.title == "雪球监控警告" && p.body == "Cookie似乎失效了，请更新 Secrets"
    ensures p.url == Some("https://xueqiu.com/P/ZH000000")
  {
    assert "https://xueqiu.com/P/" + "ZH000000" == "https://xueqiu.com/P/ZH000000";
    Push(CookieAlert, now, "雪球监控警告", "Cookie似乎失效了，请更新 Secrets", LinkTo("ZH000000"))
  }

  /** The part of the step that runs on a 200 response carrying a trade. */
  function Observe(cube: Cube, saved: Saved, trade: Trade, now: real, fmt: Formats): (r: Result<Step>)
    ensures r.Raised? <==> trade.id.None? || LastSeen(saved, cube.symbol).Raised?
    ensures r.Ok? ==>
              var current := Cursor(trade.id.value, Status(trade));
              var last := LastSeen(saved, cube.symbol).value;
              if current == last then r.value == Quiet(saved)
              else
                && r.value.saved == Remember(saved, cube.symbol, current)
                && r.value.archived == Some(Archived(trade, Body(Decide(cube.name, trade, current, last), fmt)))
                && (r.value.push.Some? <==> Decide(cube.name, trade, current, last).push)
                && (r.value.push.Some? ==>
                      r.value.push.value == Push(TradeAlert, now, Decide(cube.name, trade, current, last).title,
                                                 r.value.archived.value.summaryText, LinkTo(cube.symbol)))
  {
    if trade.id.None? then Raised(MissingTradeId)
    else
      var current := Cursor(trade.id.value, Status(trade));
      match LastSeen(saved, cube.symbol)
      case Raised(f) => Raised(f)
      case Ok(last) =>
        if Classify(current, last) == NoChange then Ok(Quiet(saved))
        else
          var d := Decide(cube.name, trade, current, last);
          var body := Body(d, fmt);
          var push := if d.push then Some(Push(TradeAlert, now, d.title, body, LinkTo(cube.symbol))) else None;
          Ok(Step(Remember(saved, cube.symbol, current), push, Some(Archived(trade, body))))
  }

  /** `monitor_one_cube`. A raised exception anywhere drops the cube with nothing changed. */
  function MonitorOne(cube: Cube, saved: Saved, poll: Poll, settings: Settings): (s: Step)
    // an unreachable feed changes nothing
    ensures poll.fetch.Unreachable? ==> s == Quiet(saved)
    // only an authentication failure raises the cookie alert; it stamps the alert
    // key with the poll time and touches nothing else
    ensures s.Alerted() ==>
              && poll.fetch.Response? && IsAuthFailure(poll.fetch.code)
              && AlertStamp(saved).Ok? && poll.now - AlertStamp(saved).value > settings.cooldown
              && s.saved == saved[ALERT_KEY := Stamp(poll.now)]
              && s.archived.None? && s.push == Some(CookieAlertPush(poll.now))
    // a step that neither alerts nor archives leaves the mapping as it was
    ensures !s.Alerted() && s.archived.None? ==> s.saved == saved
    // archiving happens only for a trade that changed the cursor, and then the
    // cursor is overwritten whether or not a push was sent
    ensures s.archived.Some? ==>
              var t := s.archived.value.trade;
              && poll.fetch == Response(200, Some(t))
              && t.id.Some?
              && LastSeen(saved, cube.symbol).Ok?
              && LastSeen(saved, cube.symbol).value != Cursor(t.id.value, Status(t))
              && s.saved == Remember(saved, cube.symbol, Cursor(t.id.value, Status(t)))
              && !s.Alerted()
    // a trade push is sent only with an archive, and carries the archived body
    ensures s.push.Some? && !s.Alerted() ==>
              s.archived.Some? && s.push.value.body == s.archived.value.summaryText
    ensures s.push.Some? ==> s.push.value.at == poll.now
    // progress: a trade whose (id, status) differs from the cursor is archived with
    // the final body and remembered, and pushed exactly when the gate holds
    ensures poll.fetch.Response? && poll.fetch.code == 200 && poll.fetch.latest.Some? &&
            poll.fetch.latest.value.id.Some? && LastSeen(saved, cube.symbol).Ok? &&
            LastSeen(saved, cube.symbol).value != Cursor(poll.fetch.latest.value.id.value, Status(poll.fetch.latest.value)) ==>
              var t := poll.fetch.latest.value;
              var current := Cursor(t.id.value, Status(t));
              var d := Decide(cube.name, t, current, LastSeen(saved, cube.symbol).value);
              && s.saved == Remember(saved, cube.symbol, current)
              && s.archived == Some(Archived(t, Body(d, settings.fmt)))
              && s.push == (if d.push then Some(Push(TradeAlert, poll.now, d.title, Body(d, settings.fmt), LinkTo(cube.symbol))) else None)
    // progress: an authentication failure past the cooldown sends the alert and stamps the time
    ensures poll.fetch.Response? && IsAuthFailure(poll.fetch.code) && AlertStamp(saved).Ok? &&
            poll.now - AlertStamp(saved).value > settings.cooldown ==>
              s == Step(saved[ALERT_KEY := Stamp(poll.now)], Some(CookieAlertPush(poll.now)), None)
    // an authentication failure inside the cooldown changes nothing
    ensures poll.fetch.Response? && IsAuthFailure(poll.fetch.code) && AlertStamp(saved).Ok? &&
            poll.now - AlertStamp(saved).value <= settings.cooldown ==>
              s == Quiet(saved)
  {
    match poll.fetch
    case Unreachable => Quiet(saved)
    case Response(code, latest) =>
      match CheckCookie(code, saved, poll.now, settings.cooldown)
      case Raised(_) => Quiet(saved)
      case Ok(v) =>
        if !v.valid then Step(v.saved, if v.alert then Some(CookieAlertPush(poll.now)) else None, None)
        else if code == 200 && latest.Some? then
          match Observe(cube, saved, latest.value, poll.now, settings.fmt)
          case Raised(_) => Quiet(saved)
          case Ok(s) => s
        else Quiet(saved)
  }

  /** When the fetched (id, status) is the one remembered, the step sends nothing,
      archives nothing and leaves the mapping unchanged. */
  lemma UnchangedTradeIsSilent(cube: Cube, saved: Saved, poll: Poll, settings: Settings, t: Trade)
    requires poll.fetch == Response(200, Some(t)) && t.id.Some?
    requires LastSeen(saved, cube.symbol) == Ok(Cursor(t.id.value, Status(t)))
    ensures MonitorOne(cube, saved, poll, settings) == Quiet(saved)
  {
  }

  /** Polling the same trade again right after it was archived is silent: the
      cursor written by the first step deduplicates the second. */
  lemma RepollIsSilent(cube: Cube, saved: Saved, poll: Poll, poll': Poll, settings: Settings)
    requires MonitorOne(cube, saved, poll, settings).archived.Some?
    requires poll'.fetch == poll.fetch
    ensures var s := MonitorOne(cube, saved, poll, settings);
            MonitorOne(cube, s.saved, poll', settings) == Quiet(s.saved)
  {
    var s := MonitorOne(cube, saved, poll, settings);
    var t := s.archived.value.trade;
    assert LastSeen(s.saved, cube.symbol) == Ok(Cursor(t.id.value, Status(t)));
    UnchangedTradeIsSilent(cube, s.saved, poll', settings, t);
  }

  /** The state of a run: the in-memory mapping, the mapping last written to the
      store, the history log of each symbol, and the pushes sent so far. */
  datatype World = World(saved: Saved, db: Saved, history: map<string, seq<Archived>>, pushes: seq<Push>)

  function HistoryOf(history: map<string, seq<Archived>>, symbol: string): seq<Archived> {
    if symbol in history then history[symbol] else []
  }

  /** Record one cube's step in the world: send its push, archive its trade and
      write the mapping to the store when it archived. */
  function Commit(w: World, symbol: string, s: Step): (r: World)
    ensures r.saved == s.saved
    ensures s.archived.Some? ==>
              && r.db == s.saved
              && symbol in r.history
              && r.history[symbol] == Archive(HistoryOf(w.history, symbol), s.archived.value)
              && |r.history[symbol]| <= HISTORY_LIMIT
              && r.history[symbol][0] == s.archived.value
    ensures s.archived.None? ==> r.db == w.db && r.history == w.history
    ensures forall k :: k in w.history && k != symbol ==> k in r.history && r.history[k] == w.history[k]
    ensures r.pushes == w.pushes + (if s.push.Some? then [s.push.value] else [])
  {
    World(
      s.saved,
      if s.archived.Some? then s.saved else w.db,
      if s.archived.Some? then w.history[symbol := Archive(HistoryOf(w.history, symbol), s.archived.value)]
      else w.history,
      w.pushes + (if s.push.Some? then [s.push.value] else []))
  }

  /** One iteration of the loop in `main`. */
  function Apply(w: World, cube: Cube, poll: Poll, settings: Settings): World {
    Commit(w, cube.symbol, MonitorOne(cube, w.saved, poll, settings))
  }

  /** The loop of `main` over the watch list, one poll per cube. An authentication
      failure ends only its own cube's step; the loop goes on. */
  function Fold(w: World, cubes: seq<Cube>, polls: seq<Poll>, settings: Settings): (r: World)
    requires |cubes| == |polls|
    ensures |w.pushes| <= |r.pushes| <= |w.pushes| + |cubes|
    ensures r.pushes[..|w.pushes|] == w.pushes
    ensures forall k :: k in r.history ==>
              (k in w.history && r.history[k] == w.history[k]) || |r.history[k]| <= HISTORY_LIMIT
    ensures r.history.Keys <= w.history.Keys + SymbolsOf(cubes)
    decreases |cubes|
  {
    if |cubes| == 0 then w
    else
      var next := Apply(w, cubes[0], polls[0], settings);
      var r := Fold(next, cubes[1..], polls[1..], settings);
      assert r.pushes[..|w.pushes|] == w.pushes by {
        assert r.pushes[..|next.pushes|][..|w.pushes|] == w.pushes;
      }
      r
  }

  /** The symbols of a watch list. */
  function SymbolsOf(cubes: seq<Cube>): set<string> {
    if |cubes| == 0 then {} else {cubes[0].symbol} + SymbolsOf(cubes[1..])
  }

  /** `main`: load the mapping from the store, run the loop, write the mapping once more. */
  function Run(db: Saved, history: map<string, seq<Archived>>, cubes: seq<Cube>, polls: seq<Poll>, settings: Settings): (r: World)
    requires |cubes| == |polls|
    ensures r.db == r.saved
    ensures |r.pushes| <= |cubes|
    ensures forall k :: k in r.history ==>
              (k in history && r.history[k] == history[k]) || |r.history[k]| <= HISTORY_LIMIT
  {
    var w := Fold(World(db, db, history, []), cubes, polls, settings);
    w.(db := w.saved)
  }

  /** `main` as the loop it is written as. */
  method RunLoop(db: Saved, history: map<string, seq<Archived>>, cubes: seq<Cube>, polls: seq<Poll>, settings: Settings)
    returns (w: World)
    requires |cubes| == |polls|
    ensures w == Run(db, history, cubes, polls, settings)
  {
    w := World(db, db, history, []);
    var i := 0;
    while i < |cubes|
      invariant 0 <= i <= |cubes|
      invariant Fold(w, cubes[i..], polls[i..], settings) == Fold(World(db, db, history, []), cubes, polls, settings)
    {
      assert cubes[i..][1..] == cubes[i + 1..] && polls[i..][1..] == polls[i + 1..];
      w := Apply(w, cubes[i], polls[i], settings);
      i := i + 1;
    }
    w := w.(db := w.saved);
  }

  /** The times at which cookie alerts were sent, in order. */
  function AlertTimes(pushes: seq<Push>): seq<real>
  {
    if |pushes| == 0 then []
    else
      var last := pushes[|pushes| - 1];
      AlertTimes(pushes[..|pushes| - 1]) + (if last.kind == CookieAlert then [last.at] else [])
  }

  lemma AlertTimesSnoc(pushes: seq<Push>, p: Push)
    ensures AlertTimes(pushes + [p]) == AlertTimes(pushes) + (if p.kind == CookieAlert then [p.at] else [])
  {
    assert (pushes + [p])[..|pushes|] == pushes;
  }

  /** Consecutive alerts are more than `cooldown` seconds apart. */
  ghost predicate Spaced(times: seq<real>, cooldown: real) {
    forall k :: 0 < k < |times| ==> times[k] - times[k - 1] > cooldown
  }

  /** After the last alert the alert key holds its time, unless a cube named like
      the key has since overwritten it with a record (which makes every later
      check raise). */
  ghost predicate StampTracksLastAlert(w: World) {
    var t := AlertTimes(w.pushes);
    |t| > 0 ==> ALERT_KEY in w.saved && (w.saved[ALERT_KEY] == Stamp(t[|t| - 1]) || w.saved[ALERT_KEY].Record?)
  }

  /** What a step does to the alert key: an alert stamps it with its own time,
      which is past the cooldown; any other step keeps the key or puts a record there. */
  ghost predicate AlertKeyStep(before: Saved, s: Step, now: real, cooldown: real) {
    if s.Alerted() then
      && AlertStamp(before).Ok? && now - AlertStamp(before).value > cooldown
      && ALERT_KEY in s.saved && s.saved[ALERT_KEY] == Stamp(now) && s.push.value.at == now
    else
      ALERT_KEY in before ==>
        ALERT_KEY in s.saved && (s.saved[ALERT_KEY] == before[ALERT_KEY] || s.saved[ALERT_KEY].Record?)
  }

  lemma MonitorOneAlertKey(cube: Cube, saved: Saved, poll: Poll, settings: Settings)
    ensures AlertKeyStep(saved, MonitorOne(cube, saved, poll, settings), poll.now, settings.cooldown)
  {
    var s := MonitorOne(cube, saved, poll, settings);
    if !s.Alerted() && s.archived.Some? && ALERT_KEY in saved && cube.symbol != ALERT_KEY {
      assert s.saved[ALERT_KEY] == saved[ALERT_KEY];
    }
  }

  lemma CommitKeepsAlertsSpaced(w: World, symbol: string, s: Step, now: real, cooldown: real)
    requires StampTracksLastAlert(w) && Spaced(AlertTimes(w.pushes), cooldown)
    requires AlertKeyStep(w.saved, s, now, cooldown)
    ensures var w' := Commit(w, symbol, s);
            StampTracksLastAlert(w') && Spaced(AlertTimes(w'.pushes), cooldown)
  {
    var w' := Commit(w, symbol, s);
    var t := AlertTimes(w.pushes);
    if s.push.None? {
      assert w'.pushes == w.pushes;
    } else {
      AlertTimesSnoc(w.pushes, s.push.value);
      if s.Alerted() {
        assert AlertTimes(w'.pushes) == t + [now];
        if |t| > 0 {
          assert AlertStamp(w.saved) == Ok(t[|t| - 1]);
        }
      } else {
        assert AlertTimes(w'.pushes) == t;
      }
    }
  }

  lemma {:induction false} FoldKeepsAlertsSpaced(w: World, cubes: seq<Cube>, polls: seq<Poll>, settings: Settings)
    requires |cubes| == |polls|
    requires StampTracksLastAlert(w) && Spaced(AlertTimes(w.pushes), settings.cooldown)
    ensures var r := Fold(w, cubes, polls, settings);
            StampTracksLastAlert(r) && Spaced(AlertTimes(r.pushes), settings.cooldown)
    decreases |cubes|
  {
    if |cubes| > 0 {
      MonitorOneAlertKey(cubes[0], w.saved, polls[0], settings);
      CommitKeepsAlertsSpaced(w, cubes[0].symbol, MonitorOne(cubes[0], w.saved, polls[0], settings), polls[0].now, settings.cooldown);
      FoldKeepsAlertsSpaced(Apply(w, cubes[0], polls[0], settings), cubes[1..], polls[1..], settings);
    }
  }

  /** In a run, any two consecutive cookie alerts are more than the cooldown apart,
      however the polls' times and status codes fall. */
  lemma AlertsRespectCooldown(db: Saved, history: map<string, seq<Archived>>, cubes: seq<Cube>, polls: seq<Poll>, settings: Settings)
    requires |cubes| == |polls|
    ensures var t := AlertTimes(Run(db, history, cubes, polls, settings).pushes);
            forall k :: 0 < k < |t| ==> t[k] - t[k - 1] > settings.cooldown
  {
    FoldKeepsAlertsSpaced(World(db, db, history, []), cubes, polls, settings);
  }

  /** An authentication failure on one cube does not stop the loop: a new trade on
      the next cube is still archived and remembered. */
  lemma AuthFailureDoesNotHalt(db: Saved, history: map<string, seq<Archived>>, first: Cube, next: Cube,
                               p1: Poll, p2: Poll, settings: Settings, t: Trade)
    requires p1.fetch.Response? && IsAuthFailure(p1.fetch.code)
    requires p2.fetch == Response(200, Some(t)) && t.id.Some?
    requires next.symbol != ALERT_KEY
    requires LastSeen(db, next.symbol).Ok? && LastSeen(db, next.symbol).value != Cursor(t.id.value, Status(t))
    ensures var w := Run(db, history, [first, next], [p1, p2], settings);
            && LastSeen(w.saved, next.symbol) == Ok(Cursor(t.id.value, Status(t)))
            && next.symbol in w.history
            && |w.history[next.symbol]| > 0
            && w.history[next.symbol][0].trade == t
  {
    var w0 := World(db, db, history, []);
    var s1 := MonitorOne(first, db, p1, settings);
    var w1 := Commit(w0, first.symbol, s1);
    assert s1.archived.None?;
    assert LastSeen(w1.saved, next.symbol) == LastSeen(db, next.symbol);
    var s2 := MonitorOne(next, w1.saved, p2, settings);
    assert s2.archived == Some(Archived(t, s2.archived.value.summaryText));
    var w2 := Commit(w1, next.symbol, s2);
    assert Fold(w0, [first, next], [p1, p2], settings) == Fold(w1, [next], [p2], settings);
    assert Fold(w1, [next], [p2], settings) == Fold(w2, [], [], settings);
  }

  /** A non-system trade whose glyph has no review mark, whose id is unchanged but
      whose status moved, is pushed with the status note, and the cursor takes the
      new status (e.g. "100": pending -> success). */
  lemma StatusOnlyUpdateIsPushed(cube: Cube, saved: Saved, poll: Poll, settings: Settings, t: Trade, before: string)
    requires poll.fetch == Response(200, Some(t)) && t.id.Some?
    requires LastSeen(saved, cube.symbol) == Ok(Cursor(t.id.value, before))
    requires before != Status(t)
    requires Category(t) != SYS && !NeedsReview(Category(t), Status(t))
    ensures var s := MonitorOne(cube, saved, poll, settings);
            var d := Decide(cube.name, t, Cursor(t.id.value, Status(t)), Cursor(t.id.value, before));
            && s.push.Some? && s.push.value.kind == TradeAlert
            && d.footer == Some(StatusNote(before, Status(t)))
            && LastSeen(s.saved, cube.symbol) == Ok(Cursor(t.id.value, Status(t)))
  {
  }

  /** A new user trade whose only change is 5.0% -> 5.05% sends no push, but is
      archived with the minor-adjustment note and remembered. */
  lemma MinorAdjustmentIsArchivedSilently(cube: Cube, saved: Saved, poll: Poll, settings: Settings, t: Trade)
    requires poll.fetch == Response(200, Some(t)) && t.id.Some?
    requires t.category == Some(USER) && !NeedsReview(USER, Status(t))
    requires t.histories == [Stock(Some("A"), None, Some(5.0), Some(5.05))]
    requires LastSeen(saved, cube.symbol).Ok? && LastSeen(saved, cube.symbol).value.id != t.id.value
    ensures var s := MonitorOne(cube, saved, poll, settings);
            var d := Decide(cube.name, t, Cursor(t.id.value, Status(t)), LastSeen(saved, cube.symbol).value);
            && s.push.None?
            && s.archived.Some? && s.archived.value.trade == t
            && |d.lines| == 3 && d.footer == Some(MinorNote)
            && LastSeen(s.saved, cube.symbol) == Ok(Cursor(t.id.value, Status(t)))
  {
    var last := LastSeen(saved, cube.symbol).value;
    var current := Cursor(t.id.value, Status(t));
    assert CheckCookie(200, saved, poll.now, settings.cooldown) == Ok(Verdict(true, saved, false));
    assert !Significant(t.histories[0]);
    assert Moves(USER, t.histories) == [];
    var d := Decide(cube.name, t, current, last);
    assert !d.push;
    var o := Observe(cube, saved, t, poll.now, settings.fmt);
    assert o.Ok? && o.value.push.None? && o.value.archived.Some?;
    assert MonitorOne(cube, saved, poll, settings) == o.value;
  }
}

=== FILE: store.dfy ===
/** The persisted mapping `saved_data`: one `{id, status}` record per cube symbol,
    plus the cookie-alert timestamp stored under its own key in the same mapping. */
module Store {
  import opened Base

  /** The key under which the last cookie alert time is kept. */
  const ALERT_KEY: string := "last_cookie_alert_time"

  /** A value of the saved mapping, as read back from JSON. */
  datatype Slot =
    | Record(id: Option<string>, status: Option<string>)
    | Stamp(time: real)

  type Saved = map<string, Slot>

  /** The last-seen (trade id, status) pair of one cube. */
  datatype Cursor = Cursor(id: string, status: string)

  /** The cursor of a cube never seen before. */
  const Unseen: Cursor := Cursor("", "unknown")

  /** `saved_data.get(symbol, {})` followed by `.get('id', "")` and
      `.get('status', 'unknown')`; a number stored under the symbol has no `.get`
      and raises. */
  function LastSeen(saved: Saved, symbol: string): (r: Result<Cursor>)
    ensures symbol !in saved ==> r == Ok(Unseen)
    ensures r.Raised? <==> symbol in saved && saved[symbol].Stamp?
    ensures r.Ok? && symbol in saved ==>
              r.value == Cursor(saved[symbol].id.GetOr(""), saved[symbol].status.GetOr("unknown"))
  {
    if symbol !in saved then Ok(Unseen)
    else match saved[symbol]
      case Stamp(_) => Raised(CursorNotRecord)
      case Record(id, status) => Ok(Cursor(id.GetOr(""), status.GetOr("unknown")))
  }

  /** `saved_data[symbol] = {'id': ..., 'status': ...}`: overwrite one cube's cursor. */
  function Remember(saved: Saved, symbol: string, c: Cursor): (r: Saved)
    ensures r.Keys == saved.Keys + {symbol}
    ensures forall k :: k in saved && k != symbol ==> r[k] == saved[k]
    ensures LastSeen(r, symbol) == Ok(c)
  {
    saved[symbol := Record(Some(c.id), Some(c.status))]
  }

  /** `saved_data.get('last_cookie_alert_time', 0)`; a record stored there cannot
      be subtracted from a time and raises. */
  function AlertStamp(saved: Saved): (r: Result<real>)
    ensures ALERT_KEY !in saved ==> r == Ok(0.0)
    ensures r.Raised? <==> ALERT_KEY in saved && saved[ALERT_KEY].Record?
    ensures r.Ok? && ALERT_KEY in saved ==> saved[ALERT_KEY] == Stamp(r.value)
  {
    if ALERT_KEY !in saved then Ok(0.0)
    else match saved[ALERT_KEY]
      case Record(_, _) => Raised(AlertStampNotNumber)
      case Stamp(t) => Ok(t)
  }

  /** Writing a cursor and reading it back under another symbol sees the old value:
      overwriting one cube's cursor leaves every other cube's cursor as it was. */
  lemma RememberIsolated(saved: Saved, symbol: string, c: Cursor, other: string)
    requires other != symbol
    ensures LastSeen(Remember(saved, symbol, c), other) == LastSeen(saved, other)
    ensures other == ALERT_KEY ==> AlertStamp(Remember(saved, symbol, c)) == AlertStamp(saved)
  {
  }
}

=== FILE: summary.dfy ===
/** The pieces of a rebalancing summary: the cube name and header taken from the
    display name, the status glyph, the allocation lines that pass the 0.1 filter,
    and the text each line renders to. */
module Summary {
  import opened Base
  import opened Text
  import opened Feed

  const SYS: string := "sys_rebalancing"
  const USER: string := "user_rebalancing"

  /** The glyph character that marks a summary needing a human look. */
  const REVIEW_MARK: char := '❓'

  /** Separator between cube name and manager in a display name. */
  const NAME_SEP: string := " - "

  /** Allocation changes of at most this many percentage points are not shown. */
  const THRESHOLD: real := 0.1

  /** The fixed rule line under the header. */
  const RULE: string := "------------------"

  /** Statuses of a user rebalancing that have their own glyph. */
  predicate KnownStatus(status: string) {
    status == "success" || status == "failed" || status == "pending"
  }

  /** When the glyph carries the review mark: an unrecognised category, or a user
      rebalancing whose unrecognised status itself contains the mark. */
  predicate NeedsReview(category: string, status: string) {
    category != SYS && (category != USER || (!KnownStatus(status) && REVIEW_MARK in status))
  }

  /** The status glyph that opens the title. */
  function Glyph(category: string, status: string): (r: string)
    ensures REVIEW_MARK in r <==> NeedsReview(category, status)
    ensures category == SYS ==> r == "⚙️[系统]"
    ensures category == USER && status == "success" ==> r == "✅[成功]"
    ensures category == USER && status == "failed" ==> r == "❌[失败]"
    ensures category == USER && status == "pending" ==> r == "⏳[待成交]"
    ensures category == USER && !KnownStatus(status) ==> r == "[" + status + "]"
    ensures category != SYS && category != USER ==> r == "❓[未知]"
  {
    if category == SYS then "⚙️[系统]"
    else if category == USER then
      if status == "success" then "✅[成功]"
      else if status == "failed" then "❌[失败]"
      else if status == "pending" then "⏳[待成交]"
      else "[" + status + "]"
    else "❓[未知]"
  }

  /** The verb of an allocation line. */
  datatype Verb = System | Buy | Sell

  /** One line of the summary body. */
  datatype Line =
    | ManagerLine(manager: string)
    | CubeLine(cube: string)
    | TimeLine(beijing: Option<int>)     // Beijing-time epoch seconds, or unknown
    | Rule
    | Move(verb: Verb, stock: string, prev: real, target: real)
    | SystemNote
    | NewCategoryNote(category: string)
    | StatusNote(before: string, after: string)
    | MinorNote
  {
    /** The notes appended after the allocation lines. */
    predicate IsFooter() {
      SystemNote? || NewCategoryNote? || StatusNote? || MinorNote?
    }
  }

  /** The cube name used in the title, and the header line of the body. */
  datatype Heading = Heading(cube: string, header: Line)

  /** A display name "name - manager" names the manager in the header and keeps
      only the part before the first " - " as the cube name; any other display
      name is used whole. */
  function HeadingOf(fullName: string): (h: Heading)
    ensures h.header.ManagerLine? <==> Contains(fullName, NAME_SEP)
    ensures h.header.ManagerLine? ==> h.cube + NAME_SEP + h.header.manager == fullName
    ensures h.header.ManagerLine? ==> forall j :: 0 <= j < |h.cube| ==> !OccursAt(fullName, NAME_SEP, j)
    ensures !h.header.ManagerLine? ==> h.cube == fullName && h.header == CubeLine(fullName)
  {
    match SplitOnce(fullName, NAME_SEP)
    case Some((cube, manager)) => Heading(cube, ManagerLine(manager))
    case None => Heading(fullName, CubeLine(fullName))
  }

  /** Epoch milliseconds shifted to Beijing time (UTC+8), in whole seconds: the
      floor of `ms / 1000 + 28800`, which is what `gmtime` receives. */
  function BeijingSeconds(ms: int): (r: int)
    ensures (r - 28800) * 1000 <= ms < (r - 28800 + 1) * 1000
  {
    ms / 1000 + 28800
  }

  /** `if created_at:` — a missing or zero timestamp shows as unknown. */
  function TimeOf(createdAt: Option<int>): (r: Option<int>)
    ensures r.None? <==> createdAt.None? || createdAt.value == 0
    ensures r.Some? ==> r.value == BeijingSeconds(createdAt.value)
  {
    if createdAt.Some? && createdAt.value != 0 then Some(BeijingSeconds(createdAt.value)) else None
  }

  function Abs(x: real): real {
    if x < 0.0 then -x else x
  }

  /** A stock's change is shown only when it moves by more than the threshold. */
  predicate Significant(s: Stock) {
    Abs(Change(s)) > THRESHOLD
  }

  /** "系统" for a system rebalancing; otherwise "买入" for a rise, "卖出" for anything else. */
  function VerbOf(category: string, change: real): (v: Verb)
    ensures v == System <==> category == SYS
    ensures v == Buy <==> category != SYS && change > 0.0
    ensures v == Sell <==> category != SYS && change <= 0.0
  {
    if category == SYS then System else if change > 0.0 then Buy else Sell
  }

  /** The allocation line for one stock, with defaulted weights; its verb follows
      the direction between the two weights it shows. */
  function MoveOf(category: string, s: Stock): (l: Line)
    ensures l.Move?
    ensures l.stock == StockLabel(s)
    ensures l.prev == Weight(s.prevWeight) && l.target == Weight(s.targetWeight)
    ensures l.verb == VerbOf(category, l.target - l.prev)
  {
    Move(VerbOf(category, Change(s)), StockLabel(s), Weight(s.prevWeight), Weight(s.targetWeight))
  }

  /** The allocation lines, in feed order, of the stocks whose change passes the filter. */
  function Moves(category: string, stocks: seq<Stock>): (r: seq<Line>)
    ensures |r| <= |stocks|
    ensures forall i :: 0 <= i < |r| ==> r[i].Move?
    ensures |r| == 0 <==> forall i :: 0 <= i < |stocks| ==> !Significant(stocks[i])
    ensures forall l :: l in r ==>
              && l.Move?
              && Abs(l.target - l.prev) > THRESHOLD
              && (l.verb == System <==> category == SYS)
              && (category != SYS ==> (l.verb == Buy <==> l.target > l.prev))
              && (category != SYS ==> (l.verb == Sell <==> l.target < l.prev))
  {
    if |stocks| == 0 then []
    else
      var head := if Significant(stocks[0]) then [MoveOf(category, stocks[0])] else [];
      head + Moves(category, stocks[1..])
  }

  /** Every stock that passes the filter has its line, and every line belongs to a
      stock that passes it: the filter is exactly `abs(target - prev) > 0.1`. */
  lemma {:induction false} MovesExact(category: string, stocks: seq<Stock>)
    ensures forall i :: 0 <= i < |stocks| && Significant(stocks[i]) ==> MoveOf(category, stocks[i]) in Moves(category, stocks)
    ensures forall l :: l in Moves(category, stocks) ==>
              exists i :: 0 <= i < |stocks| && Significant(stocks[i]) && l == MoveOf(category, stocks[i])
    decreases |stocks|
  {
    if |stocks| > 0 {
      MovesExact(category, stocks[1..]);
      var head := if Significant(stocks[0]) then [MoveOf(category, stocks[0])] else [];
      assert Moves(category, stocks) == head + Moves(category, stocks[1..]);
      forall i | 0 <= i < |stocks| && Significant(stocks[i])
        ensures MoveOf(category, stocks[i]) in Moves(category, stocks)
      {
        if i > 0 {
          assert stocks[1..][i - 1] == stocks[i];
        }
      }
      forall l | l in Moves(category, stocks)
        ensures exists i :: 0 <= i < |stocks| && Significant(stocks[i]) && l == MoveOf(category, stocks[i])
      {
        if l in head {
          assert Significant(stocks[0]) && l == MoveOf(category, stocks[0]);
        } else {
          assert l in Moves(category, stocks[1..]);
          var j :| 0 <= j < |stocks[1..]| && Significant(stocks[1..][j]) && l == MoveOf(category, stocks[1..][j]);
          assert stocks[1..][j] == stocks[j + 1];
        }
      }
    }
  }

  /** How the monitor formats the parts of a line it takes from library calls:
      `strftime` of a Beijing-time epoch second, and `str` of a weight. */
  datatype Formats = Formats(clock: int -> string, percent: real -> string)

  function VerbText(v: Verb): string {
    match v
    case System => "系统"
    case Buy => "买入"
    case Sell => "卖出"
  }

  /** The text of one line of the body. A note can be told from every other line
      by its opening parenthesis: header, time, rule and allocation lines all
      start with an emoji, a dash or a verb. */
  function LineText(l: Line, fmt: Formats): (r: string)
    ensures |r| > 0
    ensures l.IsFooter() <==> r[0] == '('
    ensures l.IsFooter() ==> r[|r| - 1] == ')'
    ensures l.Move? ==> r[|r| - 1] == '%'
  {
    match l
    case ManagerLine(m) => "👤主理人: " + m
    case CubeLine(c) => "📦组合: " + c
    case TimeLine(t) => "⏰时间(北京): " + (if t.Some? then fmt.clock(t.value) else "未知")
    case Rule => RULE
    case Move(v, name, p, q) => VerbText(v) + " " + name + ": " + fmt.percent(p) + "% -> " + fmt.percent(q) + "%"
    case SystemNote => "(系统自动触发，非主理人操作)"
    case NewCategoryNote(c) => "(发现新类型: " + c + "，请人工检查)"
    case StatusNote(a, b) => "(状态更新: " + a + " -> " + b + ")"
    case MinorNote => "(微调仓，变动幅度均 < 0.1%)"
  }

  function LineTexts(lines: seq<Line>, fmt: Formats): (r: seq<string>)
    ensures |r| == |lines|
    ensures forall i :: 0 <= i < |lines| ==> r[i] == LineText(lines[i], fmt)
  {
    if |lines| == 0 then [] else [LineText(lines[0], fmt)] + LineTexts(lines[1..], fmt)
  }
}

=== FILE: text.dfy ===
/** The string operations the monitor relies on: substring search (`sep in s`),
    `s.split(sep, 1)` and `"\n".join(parts)`. */
module Text {
  import opened Base

  /** `pat` occurs in `s` starting at index `i`. */
  predicate OccursAt(s: string, pat: string, i: int) {
    0 <= i && i + |pat| <= |s| && s[i..i + |pat|] == pat
  }

  /** Python's `pat in s`. */
  ghost predicate Contains(s: string, pat: string) {
    exists i :: OccursAt(s, pat, i)
  }

  /** The first index at or after `from` where `pat` occurs in `s`. */
  function FindFrom(s: string, pat: string, from: nat): (r: Option<nat>)
    ensures r.Some? ==> from <= r.value && OccursAt(s, pat, r.value)
    ensures forall j :: from <= j && (r.None? || j < r.value) ==> !OccursAt(s, pat, j)
    decreases |s| - from
  {
    if from + |pat| > |s| then None
    else if s[from..from + |pat|] == pat then Some(from)
    else FindFrom(s, pat, from + 1)
  }

  /** The first occurrence of `pat` in `s`, if any. */
  function FindFirst(s: string, pat: string): (r: Option<nat>)
    ensures r.None? <==> !Contains(s, pat)
    ensures r.Some? ==> OccursAt(s, pat, r.value)
    ensures r.Some? ==> forall j :: 0 <= j < r.value ==> !OccursAt(s, pat, j)
  {
    var r := FindFrom(s, pat, 0);
    assert r.Some? ==> OccursAt(s, pat, r.value);
    r
  }

  /** Python's `s.split(sep, 1)` guarded by `sep in s`: the parts on either side of
      the FIRST occurrence of `sep`, or `None` when `sep` does not occur. */
  function SplitOnce(s: string, sep: string): (r: Option<(string, string)>)
    requires |sep| > 0
    ensures r.None? <==> !Contains(s, sep)
    ensures r.Some? ==> r.value.0 + sep + r.value.1 == s
    ensures r.Some? ==> OccursAt(s, sep, |r.value.0|)
    ensures r.Some? ==> forall j :: 0 <= j < |r.value.0| ==> !OccursAt(s, sep, j)
  {
    match FindFirst(s, sep)
    case None => None
    case Some(k) =>
      var left, right := s[..k], s[k + |sep|..];
      assert left + sep + right == s by {
        assert s[k..k + |sep|] == sep;
        assert s == s[..k] + s[k..k + |sep|] + s[k + |sep|..];
      }
      Some((left, right))
  }

  /** Python's `sep.join(parts)`. */
  function Join(parts: seq<string>, sep: string): string
  {
    if |parts| == 0 then ""
    else if |parts| == 1 then parts[0]
    else parts[0] + sep + Join(parts[1..], sep)
  }

  /** Appending `sep + x` to a non-empty join is the join with `x` added at the end:
      `s = sep.join(p); s += sep + x` builds the same text as `sep.join(p + [x])`. */
  lemma {:induction false} JoinSnoc(parts: seq<string>, sep: string, x: string)
    requires |parts| > 0
    ensures Join(parts + [x], sep) == Join(parts, sep) + sep + x
    decreases |parts|
  {
    if |parts| == 1 {
      assert parts + [x] == [parts[0], x];
      assert [parts[0], x][1..] == [x];
    } else {
      assert (parts + [x])[1..] == parts[1..] + [x];
      JoinSnoc(parts[1..], sep, x);
    }
  }
}
